=== FILE: README.md ===
# NHL teams warehouse pipeline — a Dafny model

This project models the team pipeline of the NHL data warehouse
(`nhl_project/src/data/dwh/team_parser.py`). Each scheduled run goes through four stages:

1. **Source.** It captures the team catalog into a dated snapshot table
   `dwh_source.teams_<YYYY_MM_DD>` and appends a wall-clock entry to the
   metadata ledger.
2. **Staging.** It looks up the second-newest ledger stamp and diffs the current
   snapshot against the snapshot that stamp names. The output is changed rows
   plus tombstones, all stamped with the run's batch id.
3. **Operational.** It resolves every staged row to a surrogate key
   `sha1(concat_ws("_", id, _source))` and appends it to the operational log.
4. **Hub.** It folds the batch into the hub. Each row's load time is rewritten
   to the earliest load time among the rows with the same key. Its source is
   rewritten to one source of that key, the same for all the key's rows. Rows
   whose key the hub already holds are dropped. The result is the union with
   the old hub, ordered by `(load time, key)`.

All stages are pure functions over immutable datatypes. Tables are sequences
of records, and the warehouse state is a map from table names to snapshots
plus the ledger.

Modules:

- `Outcomes`: `Option` and `Result`.
- `Lex`: the code-point order on strings. Timestamps and dates are compared with it, as the warehouse compares its string columns.
- `Seqs`: counting, permutation invariance of counts, and insertion sort by a total preorder.
- `Text`: decimal rendering of ids and `concat_ws`.
- `TableNames`: snapshot table names.
- `Ledger`: the penultimate lookup.
- `Staging`: the diff.
- `Operational`: identity resolution.
- `Hub`: the hub merge.
- `Pipeline`: the stages wired together over a warehouse state.

Inputs that the model takes as parameters:

- The fetched team list.
- The wall-clock stamp of the run.
- The scheduler's run date `ds`.
- The digest function (`hash: string -> string`). SHA-1 is assumed injective only in the lemmas that say so.
- Whether a hub table exists (`Option<seq<HubRow>>`).

Where the engine leaves a choice open, the model fixes one allowed choice:

- `first()` on the current snapshot: the model takes the first row. No contract depends on this; the tombstone lemmas assume one load time per snapshot, which is what a capture writes.
- The source written by the hub window. Line 235 reuses the window ordered by load time, and by then line 233 has replaced that column with the per-key minimum, so every row of a key ties. The engine may take the source of any row of the key. The model takes the source of the first earliest row. `Hub.Collapse` promises only a source of some row of the key, shared by all the key's rows.
- Ties in `orderBy`: insertion sort keeps input order. `Hub.Merge` promises only the order and the content. `Hub.MergeKnownKeysLeavesHub` and `Hub.MergeIdempotent` state sequence equality, which holds for this stable choice; under another tie order they hold up to the order of rows with equal `(load time, key)`.

Behaviour of the code that a reader might not expect, which the model keeps:

- **Empty current snapshot with a previous snapshot.** No row becomes a
  tombstone: the code reads `first()` of the empty current frame at line 169
  and fails. `Staging.Diff` returns `Err(EmptyCurrentSnapshot)` there.
- **Duplicated keys in a batch.** The hub does not keep one row per team in
  that case. The hub rewrite never deduplicates, so a batch that repeats a key
  adds that key several times (`Hub.MergeKeepsBatchMultiplicity`). Unique hub
  keys are proved only for batches with distinct keys (`Hub.MergeUniqueKeys`).
- **Duplicated team id in the current snapshot.** The inner join on `id` at
  line 175 stages every current row whose id carries some changed triple,
  even a row whose own triple is unchanged, and once per such triple
  (`Staging.JoinBackMembers`, `Staging.JoinBackCount`). Current rows
  `(1, A, X)` and `(1, B, Y)` against a previous `(1, A, X)` stage both. With
  unique current ids the join is the plain filter `Staging.SelectChanged`
  (`Staging.JoinBackSelects`).
- **Duplicated newest ledger stamp.** The lookup need not return the previous
  snapshot's stamp. It returns the second entry in descending order, which is
  the newest stamp again when that stamp is recorded twice
  (`Ledger.PenultimateOfDuplicatedNewest`).

## Model

| member | source | states |
|---|---|---|
| Ledger.TimestampsFor | nhl_project/src/data/dwh/team_parser.py:140 | the filtered stamps are exactly the `updated_at` values of the entries for the given table name; each stamp occurs as often as entries for that name record it |
| Ledger.Penultimate | nhl_project/src/data/dwh/team_parser.py:136-145 | `None` exactly when fewer than two entries match the name; otherwise a recorded stamp with at most one stamp strictly newer and at least two not older (position two of the descending order) |
| Ledger.SecondOfDescending | nhl_project/src/data/dwh/team_parser.py:144 | in any descending arrangement, the older of the top two is the second element, and it meets the penultimate characterisation |
| Ledger.PenultimateUnique | nhl_project/src/data/dwh/team_parser.py:136-145 | the penultimate characterisation determines the stamp uniquely, so the lookup is independent of how sort ties are broken |
| Ledger.PenultimateIgnoresOtherTables | nhl_project/src/data/dwh/team_parser.py:140 | ledger entries for other table names never change the lookup |
| Ledger.PenultimateAfterNewerSnapshot | nhl_project/src/data/dwh/team_parser.py:129-145 | after a strictly newer stamp is appended, the lookup yields the previous newest stamp |
| Ledger.PenultimateOfDuplicatedNewest | nhl_project/src/data/dwh/team_parser.py:140-144 | when the newest stamp occurs twice, the lookup returns it rather than the next distinct stamp |
| TableNames.DashToUnderscore | nhl_project/src/data/dwh/team_parser.py:121 | `replace('-', '_')` keeps the length and leaves no dash |
| TableNames.DashRoundTrip | nhl_project/src/data/dwh/team_parser.py:121 | on text without underscores, replacing dashes is undone by replacing underscores back |
| TableNames.PyPrefix | nhl_project/src/data/dwh/team_parser.py:165 | `s[:10]` is a prefix of `s` of length `min(|s|, 10)`, so short stamps do not fail |
| TableNames.SnapshotTableName | nhl_project/src/data/dwh/team_parser.py:159 | the table name is the `dwh_source.teams_` prefix followed by a dash-free rendering of the date |
| TableNames.SnapshotTableNameInjective | nhl_project/src/data/dwh/team_parser.py:121 | two run dates without underscores name the same snapshot table exactly when they are equal |
| TableNames.PrevTableName | nhl_project/src/data/dwh/team_parser.py:165 | the name read back for a stamp is the snapshot prefix followed by a dash-free rendering of the stamp's first ten characters, or of all of a shorter stamp |
| TableNames.PrevTableNameOfTimestamp | nhl_project/src/data/dwh/team_parser.py:165 | a well-formed ledger stamp names the snapshot table of a run date exactly when the stamp starts with that date |
| Staging.Tombstones | nhl_project/src/data/dwh/team_parser.py:166-170 | a row is a tombstone exactly when it is a previous row whose id is absent from the current snapshot, marked deleted and restamped; one per such previous row |
| Staging.JoinBack | nhl_project/src/data/dwh/team_parser.py:175 | every joined row is a current row stamped live with its own load time and the batch id |
| Staging.JoinBackCount | nhl_project/src/data/dwh/team_parser.py:175 | the inner join on `id` yields a current row as often as it occurs in the snapshot times the number of changed triples carrying its id |
| Staging.JoinBackMembers | nhl_project/src/data/dwh/team_parser.py:175 | a current row is joined exactly when some changed triple carries its id, whether or not its own triple changed |
| Staging.SelectChanged | nhl_project/src/data/dwh/team_parser.py:172-175 | reference filter: the current rows whose triple is among the changed triples, one per such row; equal to the join when no changed triple reuses a current id with other attributes (`Staging.JoinBackSelects`) |
| Staging.Diff | nhl_project/src/data/dwh/team_parser.py:160-179 | a first run stages every current row unchanged; an empty current snapshot against a previous one is an error; every row carries the batch id; a row is deleted exactly when its id is not current; rows sharing an id agree on the flag; every id comes from one of the snapshots |
| Staging.JoinBackSelects | nhl_project/src/data/dwh/team_parser.py:175 | when no changed triple carries a current id with other attributes, the inner join back equals a plain filter of the current rows |
| Staging.SelectChangedCount | nhl_project/src/data/dwh/team_parser.py:172-175 | with unique current ids, each current id is staged once if its triple changed and not at all otherwise |
| Staging.TombstoneCount | nhl_project/src/data/dwh/team_parser.py:168 | with unique previous ids, each vanished id gets exactly one tombstone |
| Staging.DiffTombstones | nhl_project/src/data/dwh/team_parser.py:166-170 | every previous row whose id vanished has exactly one staged row; that row is deleted, keeps name, code and source, and carries the current load time |
| Staging.DiffChangeDetection | nhl_project/src/data/dwh/team_parser.py:172-175 | a current row is staged exactly when its `(id, fullName, triCode)` triple is new, at most once, and every live staged row is such a row; load time and source are ignored, so a reused id with new attributes gives one change and no tombstone |
| Staging.DiffCompaction | nhl_project/src/data/dwh/team_parser.py:168-177 | identical business content with only new fetch times stages nothing |
| Text.NatRoundTrip | nhl_project/src/data/dwh/team_parser.py:203 | decimal rendering of a natural number parses back to it |
| Text.IntToStringInjective | nhl_project/src/data/dwh/team_parser.py:203 | distinct integer ids render to distinct texts |
| Text.ConcatWsInjective | nhl_project/src/data/dwh/team_parser.py:203 | `concat_ws("_", a, b)` determines the pair when `a` contains no separator |
| Operational.KeyTextInjective | nhl_project/src/data/dwh/team_parser.py:203 | the pre-hash text of `(id, source)` determines the pair, even for sources containing `_` |
| Operational.ResolveAll | nhl_project/src/data/dwh/team_parser.py:194-204 | one operational row per staging row, in order, with renamed fields copied and `team_id` the digest of `(id, source)`; equal `(id, source)` give equal keys |
| Operational.SurrogateKeyIdentifies | nhl_project/src/data/dwh/team_parser.py:203 | with an injective digest, two rows share a surrogate key exactly when they share `(id, source)` |
| Hub.BatchRows | nhl_project/src/data/dwh/team_parser.py:220-223 | the batch holds exactly the operational rows whose batch id is the run date, each as often as it occurs in the log |
| Hub.BatchRowsAppend | nhl_project/src/data/dwh/team_parser.py:220-223 | filtering by batch distributes over appending to the log |
| Hub.EarliestIndex | nhl_project/src/data/dwh/team_parser.py:225-233 | finds a row with minimum load time for a key, and none exactly when the key is absent |
| Hub.Collapse | nhl_project/src/data/dwh/team_parser.py:225-243 | the rewrite keeps the row count, keys, codes and source ids; each row takes the load time of an earliest row with its key and the source of some row with its key; rows sharing a key agree on both |
| Hub.AntiJoin | nhl_project/src/data/dwh/team_parser.py:248 | keeps exactly the rows whose key is outside the old hub, each with its multiplicity in the input, and drops every row of a known key |
| Hub.AntiJoinKeyCount | nhl_project/src/data/dwh/team_parser.py:248 | a key of the old hub is dropped entirely; any other key keeps all its rows |
| Hub.Merge | nhl_project/src/data/dwh/team_parser.py:245-251 | the result is ordered by `(load time, key)`; without a hub it is a permutation of the rewritten batch; with one it is a permutation of the unseen batch rows plus the old hub |
| Hub.MergeMembers | nhl_project/src/data/dwh/team_parser.py:245-251 | a row is in the new hub exactly when it is an old hub row or a rewritten batch row with an unseen key |
| Hub.MergeKeepsHub | nhl_project/src/data/dwh/team_parser.py:248-249 | every old hub row survives with its multiplicity, the hub never shrinks, and rows of known keys are never replaced |
| Hub.MergeKeys | nhl_project/src/data/dwh/team_parser.py:245-251 | the new hub's keys are the old keys plus the batch keys |
| Hub.DistinctKeysAreUnique | nhl_project/src/data/dwh/team_parser.py:248-249 | rows with pairwise distinct keys have one row per key |
| Hub.MergeUniqueKeys | nhl_project/src/data/dwh/team_parser.py:245-251 | one row per key is preserved when the batch's keys are distinct |
| Hub.MergeKeepsBatchMultiplicity | nhl_project/src/data/dwh/team_parser.py:231-251 | for a key the hub lacks, the merged hub holds exactly as many rows as the batch has with that key (no deduplication) |
| Hub.MergeKnownKeysLeavesHub | nhl_project/src/data/dwh/team_parser.py:248-249 | a sorted hub that already knows every batch key is returned unchanged |
| Hub.MergeIdempotent | nhl_project/src/data/dwh/team_parser.py:245-253 | merging the same batch a second time gives the same hub |
| Hub.MergeIgnoresOtherBatches | nhl_project/src/data/dwh/team_parser.py:221-223 | log rows from other batches never affect the merge |
| Pipeline.Capture | nhl_project/src/data/dwh/team_parser.py:108-116 | one snapshot row per fetched team, with its fields, the run's wall-clock stamp and the `API_NHL` tag |
| Pipeline.RecordSnapshot | nhl_project/src/data/dwh/team_parser.py:121-132 | the run-date table now holds the capture, other tables are untouched, and the ledger is append-only: every earlier entry, other datasets' included, is kept as a prefix and exactly one `dwh_source.teams` entry with the wall-clock stamp follows |
| Pipeline.StageTeams | nhl_project/src/data/dwh/team_parser.py:148-181 | a missing current table is an error; with fewer than two ledger entries the run is a first run; every staged row carries the run date |
| Pipeline.AppendOperational | nhl_project/src/data/dwh/team_parser.py:193-206 | the operational log is extended by exactly the resolved staged rows, its old rows untouched |
| Pipeline.StageAfterNextRun | nhl_project/src/data/dwh/team_parser.py:159-177 | a later run on another date diffs its fresh capture against the previous run's snapshot |
| Pipeline.NextRunTombstones | nhl_project/src/data/dwh/team_parser.py:162-170 | in that run every team that disappeared gets exactly one tombstone, stamped with the new run's wall-clock time |
| Pipeline.HubCoversStaged | nhl_project/src/data/dwh/team_parser.py:203-251 | after resolution and merge, the hub has a row for every staged row's surrogate key |
| Pipeline.StageAgainstItself | nhl_project/src/data/dwh/team_parser.py:162-165 | when the penultimate stamp carries the current run date, the current snapshot is diffed against itself and nothing is staged |

## Left out

- The scheduler wiring (DAG, default arguments, operators) is left out: it is orchestration, not logic.
- The HTTP fetch `get_information` is left out. It is network I/O, and the fetched team list is a parameter. A failed fetch, which returns nothing and makes the caller fail, is not modelled.
- Reading and writing tables over JDBC, credentials, session setup and row-count logging are left out. Tables are values in `Pipeline.Warehouse`, and the wall-clock stamp is a parameter.
- Write failures are left out. `write_table_to_pg` catches and prints every exception, so a run can continue after a write that did not happen. The model assumes every write succeeds.
- The bare `except` around the hub read is modelled only as an absent hub (`None`). A failure of the anti-join or union for any other reason is not modelled.
- SHA-1 is left out as an algorithm. It is a parameter, and only injectivity is assumed, in the lemmas that name it.
- Null ids are left out: ids are `int`. `concat_ws` skips nulls, which would give every null-id row the same key.
- Column types are simplified. Ids are unbounded integers, and the deleted flag is a `bool` where the source writes the strings "True" and "False".
- The stamp format is not enforced. Timestamps and dates are plain strings compared by code point. `IsTimestamp` and `IsDate` describe the `%Y-%m-%d %H:%M:%S` and `%Y-%m-%d` formats, and only the lemmas that need those formats require them.
- The date-domain mismatch is stated but not fixed. The ledger stores wall-clock stamps, while tables are named by the scheduler's run date, so the stamp's date may name no table (`TableNotFound`) or name the current table (`Pipeline.StageAgainstItself`). The lemmas about consecutive runs assume the two agree.
- Pipeline.StageTeams: its contract fixes the result only for a missing current table and for fewer than two ledger entries. The general case is covered by `Pipeline.StageAfterNextRun` under the same-date-domain assumption, not for arbitrary ledgers.
- Hub.Merge: ties under equal `(load time, key)` are broken by input order. The engine may order them differently, and the contracts only state sortedness and content.

=== FILE: hub.dfy ===
/** The hub merge `hub_teams`: the current batch of operational rows, each
    row's load time replaced by the earliest of its key and its source by the
    source of some row of the same key, anti-joined against the existing hub
    on `team_id`, appended to it and ordered by
    `(_source_load_datetime, team_id)`. */
module Hub {
  import opened Outcomes
  import opened Lex
  import opened Seqs
  import opened Operational

  /** A row of `dwh_detailed.hub_teams`. */
  datatype HubRow = HubRow(
    teamId: string,
    businessId: string,
    sourceId: int,
    loadTs: string,
    source: string)

  function InBatch(ds: string): OperationalRow -> bool
  {
    (o: OperationalRow) => o.batchId == ds
  }

  /** The operational rows of batch `ds`, in table order. */
  function BatchRows(ops: seq<OperationalRow>, ds: string): (r: seq<OperationalRow>)
    ensures forall o :: o in r <==> o in ops && o.batchId == ds
    ensures forall o :: multiset(r)[o] == if o.batchId == ds then multiset(ops)[o] else 0
    ensures |r| == Count(ops, InBatch(ds))
    decreases |ops|
  {
    if |ops| == 0 then []
    else
      assert forall o :: o in ops <==> o == ops[0] || o in ops[1..];
      assert ops == [ops[0]] + ops[1..];
      (if ops[0].batchId == ds then [ops[0]] else []) + BatchRows(ops[1..], ds)
  }

  lemma {:induction false} BatchRowsAppend(a: seq<OperationalRow>, b: seq<OperationalRow>, ds: string)
    ensures BatchRows(a + b, ds) == BatchRows(a, ds) + BatchRows(b, ds)
    decreases |a|
  {
    if |a| == 0 {
      assert a + b == b;
    } else {
      assert (a + b)[1..] == a[1..] + b;
      BatchRowsAppend(a[1..], b, ds);
    }
  }

  /** Row `i` of `b` has key `k` and a load time no later than any other row
      with key `k`. */
  ghost predicate IsEarliest(b: seq<OperationalRow>, i: int, k: string)
  {
    && 0 <= i < |b|
    && b[i].teamId == k
    && forall j :: 0 <= j < |b| && b[j].teamId == k ==> LexLe(b[i].loadTs, b[j].loadTs)
  }

  /** Hub row `x`, rewritten from row `j` of `b`, carries the load time of an
      earliest row with the same key. */
  ghost predicate TakesEarliest(b: seq<OperationalRow>, j: int, x: HubRow)
    requires 0 <= j < |b|
  {
    exists i :: IsEarliest(b, i, b[j].teamId) && x.loadTs == b[i].loadTs
  }

  /** Hub row `x`, rewritten from row `j` of `b`, carries the source of some
      row with the same key. The source window is ordered by the load time
      already rewritten to the per-key minimum, so every row of the key ties
      and the engine may pick any of them. */
  ghost predicate TakesSourceOfKey(b: seq<OperationalRow>, j: int, x: HubRow)
    requires 0 <= j < |b|
  {
    exists i :: 0 <= i < |b| && b[i].teamId == b[j].teamId && x.source == b[i].source
  }

  /** Position of a row with key `k` and the earliest load time, the first
      such row in table order; `None` when no row has key `k`. */
  function EarliestIndex(b: seq<OperationalRow>, k: string): (r: Option<nat>)
    ensures r.None? <==> forall j :: 0 <= j < |b| ==> b[j].teamId != k
    ensures r.Some? ==> IsEarliest(b, r.value, k)
    decreases |b|
  {
    if |b| == 0 then None
    else
      var last := |b| - 1;
      var p := EarliestIndex(b[..last], k);
      assert forall j :: 0 <= j < last ==> b[..last][j] == b[j];
      LexIsTotalOrder();
      if b[last].teamId != k then p
      else match p
        case None => Some(last)
        case Some(i) =>
          if LexLe(b[i].loadTs, b[last].loadTs) then Some(i) else Some(last)
  }

  /** The windowed rewrite of row `j`: its own key and codes, the load time
      and source of the first earliest row sharing its key, projected to the
      hub's columns. Taking that row's source is one choice the engine may
      make; the contract promises only a source of the key. */
  function CollapseRow(b: seq<OperationalRow>, j: int): (x: HubRow)
    requires 0 <= j < |b|
    ensures x.teamId == b[j].teamId
    ensures x.businessId == b[j].teamBusinessId && x.sourceId == b[j].teamSourceId
    ensures TakesEarliest(b, j, x)
    ensures TakesSourceOfKey(b, j, x)
  {
    var i := EarliestIndex(b, b[j].teamId).value;
    HubRow(b[j].teamId, b[j].teamBusinessId, b[j].teamSourceId, b[i].loadTs, b[i].source)
  }

  /** `last(...)` over the partition by `team_id` with an unbounded frame,
      for both rewritten columns: the load time becomes the key's earliest;
      the source, ordered by that now constant load time, becomes one source
      of the key shared by all its rows. No row is dropped or merged. */
  function Collapse(b: seq<OperationalRow>): (r: seq<HubRow>)
    ensures |r| == |b|
    ensures forall j {:trigger r[j]} :: 0 <= j < |b| ==>
      r[j].teamId == b[j].teamId && r[j].businessId == b[j].teamBusinessId
      && r[j].sourceId == b[j].teamSourceId
    ensures forall j {:trigger r[j]} :: 0 <= j < |b| ==>
      TakesEarliest(b, j, r[j]) && TakesSourceOfKey(b, j, r[j])
    ensures forall j1, j2 :: 0 <= j1 < |b| && 0 <= j2 < |b| && b[j1].teamId == b[j2].teamId ==>
      r[j1].loadTs == r[j2].loadTs && r[j1].source == r[j2].source
  {
    var r := seq(|b|, j requires 0 <= j < |b| => CollapseRow(b, j));
    assert forall j :: 0 <= j < |b| ==> r[j] == CollapseRow(b, j);
    r
  }

  function Keys(rows: seq<HubRow>): set<string>
  {
    set x | x in rows :: x.teamId
  }

  function KeyIs(k: string): HubRow -> bool
  {
    (x: HubRow) => x.teamId == k
  }

  function KeyOutside(keys: set<string>): HubRow -> bool
  {
    (x: HubRow) => x.teamId !in keys
  }

  /** At most one hub row per surrogate key. */
  ghost predicate UniqueKeys(rows: seq<HubRow>)
  {
    forall k :: Count(rows, KeyIs(k)) <= 1
  }

  /** No two rows of a batch share a surrogate key. */
  ghost predicate DistinctTeamIds(b: seq<OperationalRow>)
  {
    forall i, j :: 0 <= i < |b| && 0 <= j < |b| && b[i].teamId == b[j].teamId ==> i == j
  }

  /** Left anti join on `team_id`: the rows whose key is not in `keys`. */
  function AntiJoin(rows: seq<HubRow>, keys: set<string>): (r: seq<HubRow>)
    ensures forall x :: x in r <==> x in rows && x.teamId !in keys
    ensures forall x :: multiset(r)[x] == if x.teamId in keys then 0 else multiset(rows)[x]
    ensures |r| == Count(rows, KeyOutside(keys))
    decreases |rows|
  {
    if |rows| == 0 then []
    else
      assert forall x :: x in rows <==> x == rows[0] || x in rows[1..];
      assert rows == [rows[0]] + rows[1..];
      (if rows[0].teamId in keys then [] else [rows[0]]) + AntiJoin(rows[1..], keys)
  }

  /** The anti join removes every row of a listed key and keeps every row of
      any other key. */
  lemma {:induction false} AntiJoinKeyCount(rows: seq<HubRow>, keys: set<string>, k: string)
    ensures Count(AntiJoin(rows, keys), KeyIs(k)) == if k in keys then 0 else Count(rows, KeyIs(k))
    decreases |rows|
  {
    if |rows| > 0 {
      var head := if rows[0].teamId in keys then [] else [rows[0]];
      assert AntiJoin(rows, keys) == head + AntiJoin(rows[1..], keys);
      CountAppend(head, AntiJoin(rows[1..], keys), KeyIs(k));
      AntiJoinKeyCount(rows[1..], keys, k);
    }
  }

  /** Storage order: by load time, then by surrogate key. */
  predicate HubOrder(a: HubRow, b: HubRow)
  {
    LexLt(a.loadTs, b.loadTs) || (a.loadTs == b.loadTs && LexLe(a.teamId, b.teamId))
  }

  lemma HubOrderIsTotalPreorder()
    ensures TotalPreorder(HubOrder)
  {
    LexIsTotalOrder();
  }

  /** `hub_teams` for run date `ds`; `hub` is the existing hub, `None` when
      the hub table cannot be read yet. */
  function Merge(ops: seq<OperationalRow>, ds: string, hub: Option<seq<HubRow>>): (r: seq<HubRow>)
    ensures SortedBy(r, HubOrder)
    ensures hub.None? ==> multiset(r) == multiset(Collapse(BatchRows(ops, ds)))
    ensures hub.Some? ==>
      multiset(r) == multiset(AntiJoin(Collapse(BatchRows(ops, ds)), Keys(hub.value))) + multiset(hub.value)
  {
    HubOrderIsTotalPreorder();
    var batch := Collapse(BatchRows(ops, ds));
    match hub
    case None =>
      SortPermutes(batch, HubOrder);
      Sort(batch, HubOrder)
    case Some(h) =>
      SortPermutes(AntiJoin(batch, Keys(h)) + h, HubOrder);
      Sort(AntiJoin(batch, Keys(h)) + h, HubOrder)
  }

  lemma {:induction false} DistinctKeysAreUnique(rows: seq<HubRow>)
    requires forall i, j :: 0 <= i < |rows| && 0 <= j < |rows| && rows[i].teamId == rows[j].teamId ==>
      i == j
    ensures UniqueKeys(rows)
    decreases |rows|
  {
    if |rows| > 0 {
      var tail := rows[1..];
      DistinctKeysAreUnique(tail);
      forall k ensures Count(rows, KeyIs(k)) <= 1 {
        if rows[0].teamId == k {
          forall x | x in tail ensures !KeyIs(k)(x) {
            var j :| 0 <= j < |tail| && tail[j] == x;
            assert rows[j + 1] == x;
          }
          CountZero(tail, KeyIs(k));
        }
      }
    }
  }

  /** Membership in the merged hub: an existing row, or a rewritten batch row
      whose key the existing hub lacked. */
  lemma MergeMembers(ops: seq<OperationalRow>, ds: string, hub: Option<seq<HubRow>>, x: HubRow)
    ensures x in Merge(ops, ds, hub) <==>
      if hub.None? then x in Collapse(BatchRows(ops, ds))
      else x in hub.value || (x in Collapse(BatchRows(ops, ds)) && x.teamId !in Keys(hub.value))
  {
    var m := Merge(ops, ds, hub);
    assert x in m <==> x in multiset(m);
  }

  /** Existing hub rows are all kept unchanged; no row with an existing key
      is added, so an existing key is never overwritten; the hub never
      shrinks. */
  lemma MergeKeepsHub(ops: seq<OperationalRow>, ds: string, h: seq<HubRow>)
    ensures multiset(h) <= multiset(Merge(ops, ds, Some(h)))
    ensures |Merge(ops, ds, Some(h))| >= |h|
    ensures forall x :: x in Merge(ops, ds, Some(h)) && x.teamId in Keys(h) ==> x in h
  {
    var m := Merge(ops, ds, Some(h));
    assert |m| == |multiset(m)|;
    forall x | x in m && x.teamId in Keys(h) ensures x in h {
      MergeMembers(ops, ds, Some(h), x);
    }
  }

  /** Every key of the merged hub comes from the batch or the existing hub. */
  lemma MergeKeysWithin(ops: seq<OperationalRow>, ds: string, hub: Option<seq<HubRow>>)
    ensures Keys(Merge(ops, ds, hub))
      <= Keys(Collapse(BatchRows(ops, ds))) + (if hub.Some? then Keys(hub.value) else {})
  {
    var c := Collapse(BatchRows(ops, ds));
    forall k | k in Keys(Merge(ops, ds, hub))
      ensures k in Keys(c) + (if hub.Some? then Keys(hub.value) else {})
    {
      var x :| x in Merge(ops, ds, hub) && x.teamId == k;
      MergeMembers(ops, ds, hub, x);
    }
  }

  /** Every key of the batch and of the existing hub is in the merged hub. */
  lemma MergeKeysCover(ops: seq<OperationalRow>, ds: string, hub: Option<seq<HubRow>>)
    ensures Keys(Collapse(BatchRows(ops, ds))) + (if hub.Some? then Keys(hub.value) else {})
      <= Keys(Merge(ops, ds, hub))
  {
    var c := Collapse(BatchRows(ops, ds));
    forall k | k in Keys(c) ensures k in Keys(Merge(ops, ds, hub)) {
      var x :| x in c && x.teamId == k;
      MergeMembers(ops, ds, hub, x);
      if hub.Some? && k in Keys(hub.value) {
        var y :| y in hub.value && y.teamId == k;
        MergeMembers(ops, ds, hub, y);
      }
    }
    if hub.Some? {
      forall k | k in Keys(hub.value) ensures k in Keys(Merge(ops, ds, hub)) {
        var y :| y in hub.value && y.teamId == k;
        MergeMembers(ops, ds, hub, y);
      }
    }
  }

  /** The merged hub's keys: those of the existing hub and of the batch. */
  lemma MergeKeys(ops: seq<OperationalRow>, ds: string, hub: Option<seq<HubRow>>)
    ensures Keys(Merge(ops, ds, hub))
      == Keys(Collapse(BatchRows(ops, ds))) + (if hub.Some? then Keys(hub.value) else {})
  {
    MergeKeysWithin(ops, ds, hub);
    MergeKeysCover(ops, ds, hub);
  }

  /** With one row per key in the existing hub and one row per key in the
      batch, the merged hub again has one row per key. */
  lemma MergeUniqueKeys(ops: seq<OperationalRow>, ds: string, hub: Option<seq<HubRow>>)
    requires hub.Some? ==> UniqueKeys(hub.value)
    requires DistinctTeamIds(BatchRows(ops, ds))
    ensures UniqueKeys(Merge(ops, ds, hub))
  {
    var b := BatchRows(ops, ds);
    var c := Collapse(b);
    DistinctKeysAreUnique(c);
    var m := Merge(ops, ds, hub);
    forall k ensures Count(m, KeyIs(k)) <= 1 {
      match hub
      case None =>
        CountPermutation(m, c, KeyIs(k));
      case Some(h) =>
        var added := AntiJoin(c, Keys(h));
        CountPermutation(m, added + h, KeyIs(k));
        CountAppend(added, h, KeyIs(k));
        AntiJoinKeyCount(c, Keys(h), k);
        if k !in Keys(h) {
          CountZero(h, KeyIs(k));
        }
    }
  }

  lemma AntiJoinOfKnownKeys(rows: seq<HubRow>, keys: set<string>)
    requires Keys(rows) <= keys
    ensures AntiJoin(rows, keys) == []
  {
    forall x | x in rows ensures !KeyOutside(keys)(x) {
      assert x.teamId in Keys(rows);
    }
    CountZero(rows, KeyOutside(keys));
  }

  lemma HubSortOfSorted(h: seq<HubRow>)
    requires SortedBy(h, HubOrder)
    ensures Sort(h, HubOrder) == h
  {
    HubOrderIsTotalPreorder();
    SortOfSorted(h, HubOrder);
  }

  /** A batch that brings no new key leaves an ordered hub exactly as it
      was, even when the batch carries new codes for those keys. */
  lemma MergeKnownKeysLeavesHub(ops: seq<OperationalRow>, ds: string, h: seq<HubRow>)
    requires SortedBy(h, HubOrder)
    requires Keys(Collapse(BatchRows(ops, ds))) <= Keys(h)
    ensures Merge(ops, ds, Some(h)) == h
  {
    var c := Collapse(BatchRows(ops, ds));
    assert Merge(ops, ds, Some(h)) == Sort(AntiJoin(c, Keys(h)) + h, HubOrder);
    AntiJoinOfKnownKeys(c, Keys(h));
    assert AntiJoin(c, Keys(h)) + h == h;
    HubSortOfSorted(h);
  }

  /** Merging the same batch a second time changes nothing. */
  lemma MergeIdempotent(ops: seq<OperationalRow>, ds: string, hub: Option<seq<HubRow>>)
    ensures Merge(ops, ds, Some(Merge(ops, ds, hub))) == Merge(ops, ds, hub)
  {
    MergeKeys(ops, ds, hub);
    MergeKnownKeysLeavesHub(ops, ds, Merge(ops, ds, hub));
  }

  /** Operational rows of other batches have no effect on the merge. */
  lemma MergeIgnoresOtherBatches(
    ops: seq<OperationalRow>, other: seq<OperationalRow>, ds: string, hub: Option<seq<HubRow>>)
    requires forall o :: o in other ==> o.batchId != ds
    ensures Merge(ops + other, ds, hub) == Merge(ops, ds, hub)
    ensures Merge(other + ops, ds, hub) == Merge(ops, ds, hub)
  {
    CountZero(other, InBatch(ds));
    BatchRowsAppend(ops, other, ds);
    BatchRowsAppend(other, ops, ds);
    assert BatchRows(ops + other, ds) == BatchRows(ops, ds);
    assert BatchRows(other + ops, ds) == BatchRows(ops, ds);
  }

  function OpKeyIs(k: string): OperationalRow -> bool
  {
    (o: OperationalRow) => o.teamId == k
  }

  /** The rewrite does not deduplicate: for a key the existing hub lacks,
      the merged hub holds exactly as many rows as the batch has for it. A
      batch that repeats a key (the operational log is appended to, so
      appending one staging table twice does this) thus puts that key into
      the hub more than once. */
  lemma MergeKeepsBatchMultiplicity(
    ops: seq<OperationalRow>, ds: string, hub: Option<seq<HubRow>>, k: string)
    requires hub.None? || k !in Keys(hub.value)
    ensures Count(Merge(ops, ds, hub), KeyIs(k)) == Count(BatchRows(ops, ds), OpKeyIs(k))
  {
    var b := BatchRows(ops, ds);
    var c := Collapse(b);
    CountPointwise(c, b, KeyIs(k), OpKeyIs(k));
    var m := Merge(ops, ds, hub);
    match hub
    case None =>
      CountPermutation(m, c, KeyIs(k));
    case Some(h) =>
      var added := AntiJoin(c, Keys(h));
      CountPermutation(m, added + h, KeyIs(k));
      CountAppend(added, h, KeyIs(k));
      AntiJoinKeyCount(c, Keys(h), k);
      CountZero(h, KeyIs(k));
  }
}

=== FILE: ledger.dfy ===
/** The metadata ledger `dwh_source.metadata_table`: one `(table_name,
    updated_at)` entry per snapshot write, and the lookup of the
    second-newest stamp for a dataset. */
module Ledger {
  import opened Outcomes
  import opened Lex
  import opened Seqs

  datatype LedgerEntry = LedgerEntry(tableName: string, updatedAt: string)

  function IsFor(name: string): LedgerEntry -> bool
  {
    (e: LedgerEntry) => e.tableName == name
  }

  /** The entry recording stamp `t` for `name`. */
  function Records(name: string, t: string): LedgerEntry -> bool
  {
    (e: LedgerEntry) => e.tableName == name && e.updatedAt == t
  }

  /** The `updated_at` column of the entries for `name`, in ledger order:
      each stamp occurs once per entry recording it. */
  function TimestampsFor(ledger: seq<LedgerEntry>, name: string): (ts: seq<string>)
    ensures |ts| == Count(ledger, IsFor(name))
    ensures forall t :: t in ts <==> exists e :: e in ledger && e.tableName == name && e.updatedAt == t
    ensures forall t :: multiset(ts)[t] == Count(ledger, Records(name, t))
    decreases |ledger|
  {
    if |ledger| == 0 then []
    else
      assert forall e :: e in ledger <==> e == ledger[0] || e in ledger[1..];
      (if ledger[0].tableName == name then [ledger[0].updatedAt] else []) + TimestampsFor(ledger[1..], name)
  }

  lemma {:induction false} TimestampsForAppend(a: seq<LedgerEntry>, b: seq<LedgerEntry>, name: string)
    ensures TimestampsFor(a + b, name) == TimestampsFor(a, name) + TimestampsFor(b, name)
    decreases |a|
  {
    if |a| > 0 {
      assert (a + b)[1..] == a[1..] + b;
      TimestampsForAppend(a[1..], b, name);
    } else {
      assert a + b == b;
    }
  }

  /** Descending order on stamps: `a` is at least as new as `b`. */
  predicate NewerOrSame(a: string, b: string)
  {
    LexLe(b, a)
  }

  function NewerThan(t: string): string -> bool
  {
    (x: string) => !LexLe(x, t)
  }

  function NotOlderThan(t: string): string -> bool
  {
    (x: string) => LexLe(t, x)
  }

  /** `t` is the value at position two of `ts` in descending order: it is
      recorded, at most one stamp is strictly newer, and at least two stamps
      (itself included) are not older. A duplicated newest stamp is its own
      penultimate. */
  ghost predicate IsPenultimate(ts: seq<string>, t: string)
  {
    && t in ts
    && Count(ts, NewerThan(t)) <= 1
    && Count(ts, NotOlderThan(t)) >= 2
  }

  lemma NewerOrSameIsTotalPreorder()
    ensures TotalPreorder(NewerOrSame)
  {
    LexIsTotalOrder();
  }

  /** Position two of a descending arrangement of `ts` satisfies the
      characterisation. */
  lemma SecondOfDescending(ts: seq<string>, d: seq<string>)
    requires |d| >= 2
    requires multiset(d) == multiset(ts)
    requires SortedBy(d, NewerOrSame)
    ensures IsPenultimate(ts, d[1])
    ensures (if LexLe(d[0], d[1]) then d[0] else d[1]) == d[1]
  {
    LexIsTotalOrder();
    var t := d[1];
    assert t in multiset(d);
    assert d == [d[0]] + d[1..];
    assert d[1..] == [d[1]] + d[2..];
    forall x | x in d[1..] ensures !NewerThan(t)(x) {
      var j :| 0 <= j < |d[1..]| && d[1..][j] == x;
      assert j == 0 || NewerOrSame(d[1], d[j + 1]);
    }
    CountZero(d[1..], NewerThan(t));
    CountPermutation(d, ts, NewerThan(t));
    assert NotOlderThan(t)(d[0]) && NotOlderThan(t)(d[1]);
    CountPermutation(d, ts, NotOlderThan(t));
  }

  /** At most one stamp satisfies the characterisation. */
  lemma PenultimateUnique(ts: seq<string>, t1: string, t2: string)
    requires IsPenultimate(ts, t1) && IsPenultimate(ts, t2)
    ensures t1 == t2
  {
    LexIsTotalOrder();
    if !LexLe(t2, t1) {
      CountMonotone(ts, NotOlderThan(t2), NewerThan(t1));
    }
    if !LexLe(t1, t2) {
      CountMonotone(ts, NotOlderThan(t1), NewerThan(t2));
    }
  }

  /** `get_penultimate_table_name`: the entries for `name` sorted newest
      first; `None` when fewer than two; otherwise the top two taken and the
      older of them returned. */
  function Penultimate(ledger: seq<LedgerEntry>, name: string): (r: Option<string>)
    ensures r.None? <==> |TimestampsFor(ledger, name)| < 2
    ensures r.Some? ==> IsPenultimate(TimestampsFor(ledger, name), r.value)
  {
    var ts := TimestampsFor(ledger, name);
    if |ts| < 2 then None
    else
      NewerOrSameIsTotalPreorder();
      SortPermutes(ts, NewerOrSame);
      var top2 := Sort(ts, NewerOrSame)[..2];
      SecondOfDescending(ts, Sort(ts, NewerOrSame));
      Some(if LexLe(top2[0], top2[1]) then top2[0] else top2[1])
  }

  /** Entries recorded for other datasets never change the lookup. */
  lemma PenultimateIgnoresOtherTables(ledger: seq<LedgerEntry>, other: LedgerEntry, name: string)
    requires other.tableName != name
    ensures Penultimate(ledger + [other], name) == Penultimate(ledger, name)
  {
    TimestampsForAppend(ledger, [other], name);
    assert TimestampsFor([other], name) == [];
    assert TimestampsFor(ledger + [other], name) == TimestampsFor(ledger, name);
  }

  /** After a snapshot stamped strictly later than every earlier one is
      recorded, the lookup yields the newest earlier stamp: the previous run. */
  lemma PenultimateAfterNewerSnapshot(ledger: seq<LedgerEntry>, name: string, m: string, t: string)
    requires m in TimestampsFor(ledger, name)
    requires forall x :: x in TimestampsFor(ledger, name) ==> LexLe(x, m)
    requires LexLt(m, t)
    ensures Penultimate(ledger + [LedgerEntry(name, t)], name) == Some(m)
  {
    LexIsTotalOrder();
    var ts := TimestampsFor(ledger, name);
    TimestampsForAppend(ledger, [LedgerEntry(name, t)], name);
    var ts' := TimestampsFor(ledger + [LedgerEntry(name, t)], name);
    assert ts' == ts + [t];
    CountZero(ts, NewerThan(m));
    CountAppend(ts, [t], NewerThan(m));
    assert NotOlderThan(m)(m);
    CountZero(ts, NotOlderThan(m));
    CountAppend(ts, [t], NotOlderThan(m));
    assert IsPenultimate(ts', m);
    PenultimateUnique(ts', m, Penultimate(ledger + [LedgerEntry(name, t)], name).value);
  }

  /** When the newest stamp is recorded twice, the lookup returns it again,
      not the next distinct stamp. */
  lemma PenultimateOfDuplicatedNewest(ledger: seq<LedgerEntry>, name: string, m: string)
    requires Count(TimestampsFor(ledger, name), NotOlderThan(m)) >= 2
    requires forall x :: x in TimestampsFor(ledger, name) ==> LexLe(x, m)
    ensures Penultimate(ledger, name) == Some(m)
  {
    LexIsTotalOrder();
    var ts := TimestampsFor(ledger, name);
    CountZero(ts, NotOlderThan(m));
    CountZero(ts, NewerThan(m));
    var x :| x in ts && NotOlderThan(m)(x);
    assert x == m;
    PenultimateUnique(ts, m, Penultimate(ledger, name).value);
  }
}

=== FILE: lex.dfy ===
/** Lexicographic order on strings, comparing code points one by one and
    putting a proper prefix first. This is how the warehouse compares the
    string columns `_source_load_datetime`, `updated_at` and `team_id`. */
module Lex {

  /** `a` sorts at or before `b`. */
  predicate LexLe(a: string, b: string)
    decreases |a|
  {
    |a| == 0 || (|b| > 0 && (a[0] < b[0] || (a[0] == b[0] && LexLe(a[1..], b[1..]))))
  }

  /** `a` sorts strictly before `b`. */
  predicate LexLt(a: string, b: string)
  {
    !LexLe(b, a)
  }

  lemma {:induction false} LexReflexive(a: string)
    ensures LexLe(a, a)
    decreases |a|
  {
    if |a| > 0 {
      LexReflexive(a[1..]);
    }
  }

  lemma {:induction false} LexTotal(a: string, b: string)
    ensures LexLe(a, b) || LexLe(b, a)
    decreases |a|
  {
    if |a| > 0 && |b| > 0 && a[0] == b[0] {
      LexTotal(a[1..], b[1..]);
    }
  }

  lemma {:induction false} LexTransitive(a: string, b: string, c: string)
    requires LexLe(a, b) && LexLe(b, c)
    ensures LexLe(a, c)
    decreases |a|
  {
    if |a| > 0 && a[0] == b[0] && b[0] == c[0] {
      LexTransitive(a[1..], b[1..], c[1..]);
    }
  }

  lemma {:induction false} LexAntisymmetric(a: string, b: string)
    requires LexLe(a, b) && LexLe(b, a)
    ensures a == b
    decreases |a|
  {
    if |a| > 0 {
      LexAntisymmetric(a[1..], b[1..]);
      assert a == [a[0]] + a[1..];
      assert b == [b[0]] + b[1..];
    }
  }

  /** The four facts together: `LexLe` is a total order on strings. */
  lemma LexIsTotalOrder()
    ensures forall a: string :: LexLe(a, a)
    ensures forall a: string, b: string :: LexLe(a, b) || LexLe(b, a)
    ensures forall a: string, b: string, c: string :: LexLe(a, b) && LexLe(b, c) ==> LexLe(a, c)
    ensures forall a: string, b: string :: LexLe(a, b) && LexLe(b, a) ==> a == b
  {
    forall a: string ensures LexLe(a, a) {
      LexReflexive(a);
    }
    forall a: string, b: string ensures LexLe(a, b) || LexLe(b, a) {
      LexTotal(a, b);
    }
    forall a: string, b: string, c: string | LexLe(a, b) && LexLe(b, c) ensures LexLe(a, c) {
      LexTransitive(a, b, c);
    }
    forall a: string, b: string | LexLe(a, b) && LexLe(b, a) ensures a == b {
      LexAntisymmetric(a, b);
    }
  }
}

=== FILE: operational.dfy ===
/** Identity resolution `get_teams_to_operational`: staging rows renamed,
    projected and given the surrogate key `team_id`. The digest (SHA-1 in the
    warehouse) is a parameter: nothing is assumed of it beyond being a
    function, except where a lemma asks for it to be injective. */
module Operational {
  import opened Staging
  import opened Text

  /** A row of `dwh_operational.teams`. */
  datatype OperationalRow = OperationalRow(
    teamSourceId: int,
    teamFullName: string,
    teamBusinessId: string,
    loadTs: string,
    isDeleted: bool,
    source: string,
    batchId: string,
    teamId: string)

  /** Text hashed into the surrogate key: `concat_ws("_", id, _source)`. */
  function KeyText(sourceId: int, source: string): string
  {
    ConcatWs(IntToString(sourceId), source)
  }

  ghost predicate Injective(hash: string -> string)
  {
    forall a, b :: hash(a) == hash(b) ==> a == b
  }

  /** Distinct `(id, source)` pairs give distinct pre-hash texts, even though
      the source tag itself may contain the separator. */
  lemma KeyTextInjective(i1: int, s1: string, i2: int, s2: string)
    ensures KeyText(i1, s1) == KeyText(i2, s2) <==> i1 == i2 && s1 == s2
  {
    assert '_' !in IntToString(i1);
    assert '_' !in IntToString(i2);
    ConcatWsInjective(IntToString(i1), s1, IntToString(i2), s2);
    IntToStringInjective(i1, i2);
  }

  function Resolve(row: StagingRow, hash: string -> string): OperationalRow
  {
    OperationalRow(row.id, row.fullName, row.triCode, row.loadTs, row.isDeleted,
                   row.source, row.batchId, hash(KeyText(row.id, row.source)))
  }

  /** One operational row per staging row, in order, with the renamed fields
      copied unchanged and the key derived from `(id, source)` alone. */
  function ResolveAll(rows: seq<StagingRow>, hash: string -> string): (r: seq<OperationalRow>)
    ensures |r| == |rows|
    ensures forall i :: 0 <= i < |rows| ==>
      && r[i].teamSourceId == rows[i].id
      && r[i].teamFullName == rows[i].fullName
      && r[i].teamBusinessId == rows[i].triCode
      && r[i].loadTs == rows[i].loadTs
      && r[i].isDeleted == rows[i].isDeleted
      && r[i].source == rows[i].source
      && r[i].batchId == rows[i].batchId
      && r[i].teamId == hash(KeyText(rows[i].id, rows[i].source))
    ensures forall i, j ::
      (0 <= i < |rows| && 0 <= j < |rows| && rows[i].id == rows[j].id && rows[i].source == rows[j].source)
      ==> r[i].teamId == r[j].teamId
  {
    seq(|rows|, i requires 0 <= i < |rows| => Resolve(rows[i], hash))
  }

  /** With an injective digest, two rows — of one batch or of different
      runs — share a surrogate key exactly when they share `(id, source)`. */
  lemma SurrogateKeyIdentifies(a: StagingRow, b: StagingRow, hash: string -> string)
    requires Injective(hash)
    ensures Resolve(a, hash).teamId == Resolve(b, hash).teamId <==> a.id == b.id && a.source == b.source
  {
    KeyTextInjective(a.id, a.source, b.id, b.source);
  }
}

=== FILE: outcomes.dfy ===
/** Optional values and results with an error, used where the pipeline either
    finds nothing (no penultimate snapshot, no hub table yet) or fails. */
module Outcomes {

  datatype Option<+T> = None | Some(value: T)

  datatype Result<+T, +E> = Ok(value: T) | Err(error: E)
}

=== FILE: pipeline.dfy ===
/** The four stages wired together over an explicit warehouse state: the
    snapshot capture of `get_teams_to_source` (without the HTTP fetch), the
    table lookups of `get_teams_to_staging`, identity resolution and the hub
    merge. */
module Pipeline {
  import opened Outcomes
  import opened Lex
  import opened Seqs
  import opened TableNames
  import opened Ledger
  import opened Staging
  import opened Operational
  import opened Hub

  /** Source tag written on every captured row. */
  const ApiSource: string := "API_NHL"

  /** The tracked fields of one team as delivered by the catalog API. */
  datatype ApiTeam = ApiTeam(id: int, fullName: string, triCode: string)

  /** The snapshot tables by name, and the metadata ledger. */
  datatype Warehouse = Warehouse(tables: map<string, seq<SnapshotRow>>, ledger: seq<LedgerEntry>)

  /** The fetched teams with the run's wall-clock stamp and source tag. */
  function Capture(teams: seq<ApiTeam>, dt: string): (r: seq<SnapshotRow>)
    ensures |r| == |teams|
    ensures forall i :: 0 <= i < |teams| ==>
      r[i].id == teams[i].id && r[i].fullName == teams[i].fullName && r[i].triCode == teams[i].triCode
    ensures forall c :: c in r ==> c.loadTs == dt && c.source == ApiSource
  {
    seq(|teams|, i requires 0 <= i < |teams| =>
      SnapshotRow(teams[i].id, teams[i].fullName, teams[i].triCode, dt, ApiSource))
  }

  /** `get_teams_to_source` after the fetch: the dated snapshot table is
      overwritten and a ledger entry with the wall-clock stamp appended. */
  function RecordSnapshot(w: Warehouse, ds: string, dt: string, teams: seq<ApiTeam>): (r: Warehouse)
    ensures SnapshotTableName(ds) in r.tables && r.tables[SnapshotTableName(ds)] == Capture(teams, dt)
    ensures forall n :: n in w.tables && n != SnapshotTableName(ds) ==>
      n in r.tables && r.tables[n] == w.tables[n]
    ensures r.tables.Keys == w.tables.Keys + {SnapshotTableName(ds)}
    ensures |r.ledger| == |w.ledger| + 1 && r.ledger[..|w.ledger|] == w.ledger
    ensures r.ledger[|w.ledger|] == LedgerEntry(LedgerTableName, dt)
    ensures TimestampsFor(r.ledger, LedgerTableName) == TimestampsFor(w.ledger, LedgerTableName) + [dt]
  {
    TimestampsForAppend(w.ledger, [LedgerEntry(LedgerTableName, dt)], LedgerTableName);
    Warehouse(
      w.tables[SnapshotTableName(ds) := Capture(teams, dt)],
      w.ledger + [LedgerEntry(LedgerTableName, dt)])
  }

  /** `get_teams_to_staging` for run date `ds`: reads the current snapshot,
      looks up the penultimate ledger stamp and, when there is one, reads the
      snapshot table named after its date; a missing table is an error. An
      empty stamp counts as no stamp. */
  function StageTeams(w: Warehouse, ds: string): (r: Result<seq<StagingRow>, StageError>)
    ensures SnapshotTableName(ds) !in w.tables ==> r == Err(TableNotFound(SnapshotTableName(ds)))
    ensures SnapshotTableName(ds) in w.tables && Count(w.ledger, IsFor(LedgerTableName)) < 2 ==>
      r == Diff(w.tables[SnapshotTableName(ds)], None, ds)
    ensures r.Ok? ==> forall x :: x in r.value ==> x.batchId == ds
  {
    var curName := SnapshotTableName(ds);
    if curName !in w.tables then Err(TableNotFound(curName))
    else
      var cur := w.tables[curName];
      match Penultimate(w.ledger, LedgerTableName)
      case None => Diff(cur, None, ds)
      case Some(ts) =>
        if |ts| == 0 then Diff(cur, None, ds)
        else
          var prevName := PrevTableName(ts);
          if prevName !in w.tables then Err(TableNotFound(prevName))
          else Diff(cur, Some(w.tables[prevName]), ds)
  }

  /** `get_teams_to_operational`: the resolved staging rows appended to the
      operational log. */
  function AppendOperational(ops: seq<OperationalRow>, staged: seq<StagingRow>, hash: string -> string)
    : (r: seq<OperationalRow>)
    ensures |r| == |ops| + |staged|
    ensures r[..|ops|] == ops
    ensures r[|ops|..] == ResolveAll(staged, hash)
  {
    ops + ResolveAll(staged, hash)
  }

  /** A second run on a later date diffs the fresh snapshot against the
      snapshot of the previous run — provided the ledger stamp of that run
      and its run date agree (the stamp's date names the table) and the two
      runs fall on different dates. */
  lemma StageAfterNextRun(w: Warehouse, ds: string, dt: string, teams: seq<ApiTeam>, t1: string)
    requires IsDate(ds) && IsTimestamp(t1)
    requires t1 in TimestampsFor(w.ledger, LedgerTableName)
    requires forall x :: x in TimestampsFor(w.ledger, LedgerTableName) ==> LexLe(x, t1)
    requires LexLt(t1, dt)
    requires t1[..10] != ds
    requires PrevTableName(t1) in w.tables
    ensures StageTeams(RecordSnapshot(w, ds, dt, teams), ds)
      == Diff(Capture(teams, dt), Some(w.tables[PrevTableName(t1)]), ds)
  {
    var w' := RecordSnapshot(w, ds, dt, teams);
    PenultimateAfterNewerSnapshot(w.ledger, LedgerTableName, t1, dt);
    assert Penultimate(w'.ledger, LedgerTableName) == Some(t1);
    PrevTableNameOfTimestamp(t1, ds);
    assert PrevTableName(t1) != SnapshotTableName(ds);
  }

  /** In that run every team that disappeared since the previous run gets
      exactly one tombstone, stamped with the new run's wall-clock time. */
  lemma NextRunTombstones(w: Warehouse, ds: string, dt: string, teams: seq<ApiTeam>, t1: string)
    requires IsDate(ds) && IsTimestamp(t1)
    requires t1 in TimestampsFor(w.ledger, LedgerTableName)
    requires forall x :: x in TimestampsFor(w.ledger, LedgerTableName) ==> LexLe(x, t1)
    requires LexLt(t1, dt)
    requires t1[..10] != ds
    requires PrevTableName(t1) in w.tables
    requires UniqueIds(w.tables[PrevTableName(t1)])
    requires |teams| > 0
    ensures StageTeams(RecordSnapshot(w, ds, dt, teams), ds).Ok?
    ensures forall p :: p in w.tables[PrevTableName(t1)] && p.id !in Ids(Capture(teams, dt)) ==>
      && Count(StageTeams(RecordSnapshot(w, ds, dt, teams), ds).value, HasId(p.id)) == 1
      && StagingRow(p.id, p.fullName, p.triCode, dt, p.source, true, ds)
           in StageTeams(RecordSnapshot(w, ds, dt, teams), ds).value
  {
    var prev := w.tables[PrevTableName(t1)];
    StageAfterNextRun(w, ds, dt, teams, t1);
    DiffTombstones(Capture(teams, dt), prev, ds, dt);
    forall p | p in prev && p.id !in Ids(Capture(teams, dt))
      ensures Count(StageTeams(RecordSnapshot(w, ds, dt, teams), ds).value, HasId(p.id)) == 1
    {
      var i :| 0 <= i < |prev| && prev[i] == p;
    }
  }

  /** After resolution and the hub merge of the same run, the hub holds a
      row for the surrogate key of every staged row. */
  lemma HubCoversStaged(ops: seq<OperationalRow>, staged: seq<StagingRow>, ds: string,
                        hash: string -> string, hub: Option<seq<HubRow>>)
    requires forall x :: x in staged ==> x.batchId == ds
    ensures forall x :: x in staged ==>
      hash(KeyText(x.id, x.source)) in Keys(Merge(AppendOperational(ops, staged, hash), ds, hub))
  {
    var all := AppendOperational(ops, staged, hash);
    var resolved := ResolveAll(staged, hash);
    BatchRowsAppend(ops, resolved, ds);
    MergeKeys(all, ds, hub);
    var b := BatchRows(all, ds);
    forall x | x in staged
      ensures hash(KeyText(x.id, x.source)) in Keys(Merge(all, ds, hub))
    {
      var i :| 0 <= i < |staged| && staged[i] == x;
      assert resolved[i] == Resolve(x, hash);
      assert resolved[i] in b;
      var j :| 0 <= j < |b| && b[j] == resolved[i];
      assert Collapse(b)[j].teamId == hash(KeyText(x.id, x.source));
      assert Collapse(b)[j] in Collapse(b);
    }
  }

  /** When the penultimate ledger stamp carries the current run date, the
      "previous" table is the current snapshot itself and nothing is
      staged. The ledger holds wall-clock stamps while tables are named by
      the scheduler's logical date, so this happens whenever the two date
      domains are one run apart. */
  lemma StageAgainstItself(w: Warehouse, ds: string, t: string)
    requires IsDate(ds) && IsTimestamp(t) && t[..10] == ds
    requires Penultimate(w.ledger, LedgerTableName) == Some(t)
    requires SnapshotTableName(ds) in w.tables
    requires |w.tables[SnapshotTableName(ds)]| > 0
    ensures StageTeams(w, ds) == Ok([])
  {
    PrevTableNameOfTimestamp(t, ds);
    var cur := w.tables[SnapshotTableName(ds)];
    DiffCompaction(cur, cur, ds);
  }
}

=== FILE: seqs.dfy ===
/** Relational building blocks over finite tables held as sequences:
    counting rows that satisfy a predicate, and sorting by a total preorder
    (the model of `orderBy`). */
module Seqs {

  /** Number of rows of `s` that satisfy `p`. */
  function Count<T>(s: seq<T>, p: T -> bool): (n: nat)
    ensures n <= |s|
    decreases |s|
  {
    if |s| == 0 then 0 else (if p(s[0]) then 1 else 0) + Count(s[1..], p)
  }

  lemma {:induction false} CountAppend<T>(a: seq<T>, b: seq<T>, p: T -> bool)
    ensures Count(a + b, p) == Count(a, p) + Count(b, p)
    decreases |a|
  {
    if |a| == 0 {
      assert a + b == b;
    } else {
      assert (a + b)[1..] == a[1..] + b;
      CountAppend(a[1..], b, p);
    }
  }

  /** No row satisfies `p` exactly when the count is zero. */
  lemma {:induction false} CountZero<T>(s: seq<T>, p: T -> bool)
    ensures Count(s, p) == 0 <==> forall x :: x in s ==> !p(x)
    decreases |s|
  {
    if |s| > 0 {
      CountZero(s[1..], p);
      assert forall x :: x in s <==> x == s[0] || x in s[1..];
    }
  }

  /** Pointwise implication between predicates bounds the counts. */
  lemma {:induction false} CountMonotone<T>(s: seq<T>, p: T -> bool, q: T -> bool)
    requires forall x :: x in s && p(x) ==> q(x)
    ensures Count(s, p) <= Count(s, q)
    decreases |s|
  {
    if |s| > 0 {
      assert s[0] in s;
      assert forall x :: x in s[1..] ==> x in s;
      CountMonotone(s[1..], p, q);
    }
  }

  /** Counts agree on two equally long tables whose rows at each position
      agree on the predicates. */
  lemma {:induction false} CountPointwise<A, B>(a: seq<A>, b: seq<B>, p: A -> bool, q: B -> bool)
    requires |a| == |b|
    requires forall j :: 0 <= j < |a| ==> p(a[j]) == q(b[j])
    ensures Count(a, p) == Count(b, q)
    decreases |a|
  {
    if |a| > 0 {
      CountPointwise(a[1..], b[1..], p, q);
    }
  }

  /** A count depends only on the multiset of rows, not on their order. */
  lemma {:induction false} CountPermutation<T>(a: seq<T>, b: seq<T>, p: T -> bool)
    requires multiset(a) == multiset(b)
    ensures Count(a, p) == Count(b, p)
    decreases |a|
  {
    if |a| == 0 {
      assert |multiset(b)| == 0;
    } else {
      var x := a[0];
      assert x in multiset(a);
      assert x in multiset(b);
      var k :| 0 <= k < |b| && b[k] == x;
      var rest := b[..k] + b[k+1..];
      assert b == b[..k] + [x] + b[k+1..];
      assert a == [x] + a[1..];
      assert multiset(b) == multiset(b[..k]) + multiset{x} + multiset(b[k+1..]);
      assert multiset(a) == multiset{x} + multiset(a[1..]);
      assert multiset(rest) == multiset(b[..k]) + multiset(b[k+1..]);
      assert multiset(a[1..]) == multiset(a) - multiset{x};
      assert multiset(rest) == multiset(b) - multiset{x};
      CountPermutation(a[1..], rest, p);
      CountAppend(b[..k], b[k+1..], p);
      CountAppend(b[..k] + [x], b[k+1..], p);
      CountAppend(b[..k], [x], p);
    }
  }

  /** `n` copies of `x`. */
  function Repeat<T>(x: T, n: nat): (r: seq<T>)
    ensures |r| == n
    ensures forall y :: y in r ==> y == x
    decreases n
  {
    if n == 0 then [] else [x] + Repeat(x, n - 1)
  }

  lemma {:induction false} RepeatCount<T>(x: T, n: nat, y: T)
    ensures multiset(Repeat(x, n))[y] == if y == x then n else 0
    decreases n
  {
    if n > 0 {
      RepeatCount(x, n - 1, y);
    }
  }

  /** Counting `y` in `n` copies of `x` followed by `rest`. */
  lemma RepeatAppendCount<T>(x: T, n: nat, rest: seq<T>, y: T)
    ensures multiset(Repeat(x, n) + rest)[y] == (if y == x then n else 0) + multiset(rest)[y]
  {
    RepeatCount(x, n, y);
  }

  lemma MulSucc(n: nat, k: nat)
    ensures (n + 1) * k == n * k + k
  {
  }

  lemma MulPositive(n: nat, k: nat)
    ensures n * k > 0 <==> n > 0 && k > 0
  {
    if n > 0 && k > 0 {
      assert n * k >= k;
    }
  }

  lemma MultiplicityCons<T>(s: seq<T>, x: T)
    requires |s| > 0
    ensures multiset(s)[x] == (if x == s[0] then 1 else 0) + multiset(s[1..])[x]
  {
    assert s == [s[0]] + s[1..];
  }

  /** `le` orders every pair and chains. */
  ghost predicate TotalPreorder<T(!new)>(le: (T, T) -> bool)
  {
    && (forall a, b :: le(a, b) || le(b, a))
    && (forall a, b, c :: le(a, b) && le(b, c) ==> le(a, c))
  }

  ghost predicate SortedBy<T>(s: seq<T>, le: (T, T) -> bool)
  {
    forall i, j :: 0 <= i < j < |s| ==> le(s[i], s[j])
  }

  /** Places `x` before the first element of `s` that it sorts no later
      than. */
  function Insert<T(!new)>(x: T, s: seq<T>, le: (T, T) -> bool): (r: seq<T>)
    ensures |r| == |s| + 1
    ensures r[0] == x || (|s| > 0 && r[0] == s[0])
    ensures TotalPreorder(le) && SortedBy(s, le) ==> SortedBy(r, le)
    decreases |s|
  {
    if |s| == 0 then [x]
    else if le(x, s[0]) then [x] + s
    else
      var tail := Insert(x, s[1..], le);
      assert s == [s[0]] + s[1..];
      assert TotalPreorder(le) && SortedBy(s, le) ==> le(s[0], tail[0]);
      [s[0]] + tail
  }

  /** Insertion sort: ordered by `le` whenever `le` is a total preorder; a
      permutation of `s` by `SortPermutes`. */
  function Sort<T(!new)>(s: seq<T>, le: (T, T) -> bool): (r: seq<T>)
    ensures |r| == |s|
    ensures TotalPreorder(le) ==> SortedBy(r, le)
    decreases |s|
  {
    if |s| == 0 then []
    else
      assert s == [s[0]] + s[1..];
      Insert(s[0], Sort(s[1..], le), le)
  }

  lemma {:induction false} InsertPermutes<T(!new)>(x: T, s: seq<T>, le: (T, T) -> bool)
    ensures multiset(Insert(x, s, le)) == multiset(s) + multiset{x}
    decreases |s|
  {
    if |s| > 0 && !le(x, s[0]) {
      InsertPermutes(x, s[1..], le);
      assert s == [s[0]] + s[1..];
    }
  }

  /** Sorting rearranges the table without adding or dropping rows. */
  lemma {:induction false} SortPermutes<T(!new)>(s: seq<T>, le: (T, T) -> bool)
    ensures multiset(Sort(s, le)) == multiset(s)
    decreases |s|
  {
    if |s| > 0 {
      SortPermutes(s[1..], le);
      InsertPermutes(s[0], Sort(s[1..], le), le);
      assert s == [s[0]] + s[1..];
    }
  }

  /** Sorting an already ordered table leaves it exactly as it is. */
  lemma {:induction false} SortOfSorted<T(!new)>(s: seq<T>, le: (T, T) -> bool)
    requires TotalPreorder(le)
    requires SortedBy(s, le)
    ensures Sort(s, le) == s
    decreases |s|
  {
    if |s| > 0 {
      SortOfSorted(s[1..], le);
      assert s == [s[0]] + s[1..];
    }
  }
}

=== FILE: staging.dfy ===
/** The diff step `get_teams_to_staging`: the current snapshot compared with
    the previous one, producing changed rows and tombstones stamped with the
    run's batch id. */
module Staging {
  import opened Outcomes
  import opened Seqs

  /** A row of a dated snapshot table `dwh_source.teams_<date>`. */
  datatype SnapshotRow = SnapshotRow(
    id: int,
    fullName: string,
    triCode: string,
    loadTs: string,
    source: string)

  /** A row of `dwh_staging.teams`. */
  datatype StagingRow = StagingRow(
    id: int,
    fullName: string,
    triCode: string,
    loadTs: string,
    source: string,
    isDeleted: bool,
    batchId: string)

  /** The tracked business attributes; metadata columns are not compared. */
  datatype Triple = Triple(id: int, fullName: string, triCode: string)

  datatype StageError = EmptyCurrentSnapshot | TableNotFound(table: string)

  function Business(r: SnapshotRow): Triple
  {
    Triple(r.id, r.fullName, r.triCode)
  }

  function Ids(rows: seq<SnapshotRow>): set<int>
  {
    set r | r in rows :: r.id
  }

  function Triples(rows: seq<SnapshotRow>): set<Triple>
  {
    set r | r in rows :: Business(r)
  }

  /** No two rows of a snapshot share an `id`. */
  ghost predicate UniqueIds(rows: seq<SnapshotRow>)
  {
    forall i, j :: 0 <= i < |rows| && 0 <= j < |rows| && rows[i].id == rows[j].id ==> i == j
  }

  /** A snapshot row with the deletion flag, load time and batch id set. */
  function Stamp(r: SnapshotRow, deleted: bool, loadTs: string, batch: string): StagingRow
  {
    StagingRow(r.id, r.fullName, r.triCode, loadTs, r.source, deleted, batch)
  }

  function HasId(k: int): StagingRow -> bool
  {
    (x: StagingRow) => x.id == k
  }

  function Vanished(curIds: set<int>): SnapshotRow -> bool
  {
    (p: SnapshotRow) => p.id !in curIds
  }

  function InChanged(changed: set<Triple>): SnapshotRow -> bool
  {
    (c: SnapshotRow) => Business(c) in changed
  }

  /** Left anti join of the previous rows against the current ids, each
      survivor flagged deleted and restamped with `loadTs`. */
  function Tombstones(prev: seq<SnapshotRow>, curIds: set<int>, loadTs: string, batch: string)
    : (r: seq<StagingRow>)
    ensures forall x :: x in r <==>
      exists p :: p in prev && p.id !in curIds && x == Stamp(p, true, loadTs, batch)
    ensures |r| == Count(prev, Vanished(curIds))
    decreases |prev|
  {
    if |prev| == 0 then []
    else
      assert forall p :: p in prev <==> p == prev[0] || p in prev[1..];
      (if prev[0].id in curIds then [] else [Stamp(prev[0], true, loadTs, batch)])
        + Tombstones(prev[1..], curIds, loadTs, batch)
  }

  function MatchingTriples(changed: set<Triple>, id: int): set<Triple>
  {
    set t | t in changed && t.id == id
  }

  /** Inner join of the current rows with the changed triples on `id`: a
      current row comes out once per changed triple carrying its id. */
  function JoinBack(cur: seq<SnapshotRow>, changed: set<Triple>, batch: string): (r: seq<StagingRow>)
    ensures forall x :: x in r ==> exists c :: c in cur && x == Stamp(c, false, c.loadTs, batch)
    decreases |cur|
  {
    if |cur| == 0 then []
    else
      assert forall c :: c in cur[1..] ==> c in cur;
      Repeat(Stamp(cur[0], false, cur[0].loadTs, batch), |MatchingTriples(changed, cur[0].id)|)
        + JoinBack(cur[1..], changed, batch)
  }

  /** The join repeats each current row once per changed triple carrying
      its id, and a row occurring twice in the snapshot twice as often. */
  lemma {:induction false} JoinBackCount(
    cur: seq<SnapshotRow>, changed: set<Triple>, batch: string, c: SnapshotRow)
    ensures multiset(JoinBack(cur, changed, batch))[Stamp(c, false, c.loadTs, batch)]
      == multiset(cur)[c] * |MatchingTriples(changed, c.id)|
    decreases |cur|
  {
    if |cur| > 0 {
      var x := Stamp(c, false, c.loadTs, batch);
      var y := Stamp(cur[0], false, cur[0].loadTs, batch);
      var m := |MatchingTriples(changed, cur[0].id)|;
      var rest := JoinBack(cur[1..], changed, batch);
      assert JoinBack(cur, changed, batch) == Repeat(y, m) + rest;
      JoinBackCount(cur[1..], changed, batch, c);
      RepeatAppendCount(y, m, rest, x);
      MultiplicityCons(cur, c);
      if c == cur[0] {
        MulSucc(multiset(cur[1..])[c], m);
      } else {
        assert x != y;
      }
    }
  }

  /** A current row comes out of the join exactly when some changed triple
      carries its id, whatever its own triple is. */
  lemma {:induction false} JoinBackMembers(
    cur: seq<SnapshotRow>, changed: set<Triple>, batch: string, c: SnapshotRow)
    ensures Stamp(c, false, c.loadTs, batch) in JoinBack(cur, changed, batch)
      <==> c in cur && |MatchingTriples(changed, c.id)| > 0
  {
    JoinBackCount(cur, changed, batch, c);
    MulPositive(multiset(cur)[c], |MatchingTriples(changed, c.id)|);
  }

  /** The current rows whose triple is among `changed`, in snapshot order. */
  function SelectChanged(cur: seq<SnapshotRow>, changed: set<Triple>, batch: string): (r: seq<StagingRow>)
    ensures forall x :: x in r <==>
      exists c :: c in cur && Business(c) in changed && x == Stamp(c, false, c.loadTs, batch)
    ensures |r| == Count(cur, InChanged(changed))
    decreases |cur|
  {
    if |cur| == 0 then []
    else
      assert forall c :: c in cur <==> c == cur[0] || c in cur[1..];
      (if Business(cur[0]) in changed then [Stamp(cur[0], false, cur[0].loadTs, batch)] else [])
        + SelectChanged(cur[1..], changed, batch)
  }

  /** Every current row stamped as not deleted, row for row. */
  function StampAll(cur: seq<SnapshotRow>, batch: string): (r: seq<StagingRow>)
    ensures |r| == |cur|
    ensures forall i :: 0 <= i < |cur| ==> r[i] == Stamp(cur[i], false, cur[i].loadTs, batch)
  {
    seq(|cur|, i requires 0 <= i < |cur| => Stamp(cur[i], false, cur[i].loadTs, batch))
  }

  /** The diff proper. With no previous snapshot every current row is
      staged. Otherwise the changed rows (current triples missing from the
      previous snapshot, joined back to the current rows) are followed by the
      tombstones (previous rows whose id vanished, stamped with the load time
      of the current snapshot's first row). Reading that first row fails on
      an empty current snapshot. */
  function Diff(cur: seq<SnapshotRow>, prev: Option<seq<SnapshotRow>>, batch: string)
    : (r: Result<seq<StagingRow>, StageError>)
    ensures prev.None? ==> r.Ok? && |r.value| == |cur|
    ensures prev.None? ==> forall i :: 0 <= i < |cur| ==>
      r.value[i].id == cur[i].id && r.value[i].fullName == cur[i].fullName
      && r.value[i].triCode == cur[i].triCode
      && r.value[i].loadTs == cur[i].loadTs && r.value[i].source == cur[i].source
      && !r.value[i].isDeleted && r.value[i].batchId == batch
    ensures prev.Some? ==> (r.Err? <==> |cur| == 0)
    ensures r.Err? ==> r.error == EmptyCurrentSnapshot
    ensures r.Ok? ==> forall x :: x in r.value ==> x.batchId == batch
    ensures r.Ok? && prev.Some? ==> forall x :: x in r.value ==> (x.isDeleted <==> x.id !in Ids(cur))
    ensures r.Ok? && prev.Some? ==> forall x :: x in r.value ==> x.id in Ids(cur) + Ids(prev.value)
    ensures r.Ok? ==> forall x, y :: x in r.value && y in r.value && x.id == y.id ==>
      x.isDeleted == y.isDeleted
  {
    match prev
    case None => Ok(StampAll(cur, batch))
    case Some(p) =>
      if |cur| == 0 then Err(EmptyCurrentSnapshot)
      else
        var changed := JoinBack(cur, Triples(cur) - Triples(p), batch);
        Ok(changed + Tombstones(p, Ids(cur), cur[0].loadTs, batch))
  }

  /** When every changed triple carrying a current row's id is that row's own
      triple, the join yields each such row exactly once. */
  lemma {:induction false} JoinBackSelects(cur: seq<SnapshotRow>, changed: set<Triple>, batch: string)
    requires forall c, t :: c in cur && t in changed && t.id == c.id ==> t == Business(c)
    ensures JoinBack(cur, changed, batch) == SelectChanged(cur, changed, batch)
    decreases |cur|
  {
    if |cur| > 0 {
      assert forall c :: c in cur[1..] ==> c in cur;
      JoinBackSelects(cur[1..], changed, batch);
      var m := MatchingTriples(changed, cur[0].id);
      if Business(cur[0]) in changed {
        assert m == {Business(cur[0])};
      } else {
        assert m == {};
      }
    }
  }

  /** With unique ids, a current row has one staged row for its id when its
      triple changed and none otherwise. */
  lemma {:induction false} SelectChangedCount(
    cur: seq<SnapshotRow>, changed: set<Triple>, batch: string, i: int)
    requires UniqueIds(cur)
    requires 0 <= i < |cur|
    ensures Count(SelectChanged(cur, changed, batch), HasId(cur[i].id))
      == if Business(cur[i]) in changed then 1 else 0
    decreases |cur|
  {
    var head := if Business(cur[0]) in changed then [Stamp(cur[0], false, cur[0].loadTs, batch)] else [];
    var tail := SelectChanged(cur[1..], changed, batch);
    assert SelectChanged(cur, changed, batch) == head + tail;
    CountAppend(head, tail, HasId(cur[i].id));
    if i == 0 {
      forall x | x in tail ensures !HasId(cur[0].id)(x) {
        var c :| c in cur[1..] && Business(c) in changed && x == Stamp(c, false, c.loadTs, batch);
        var j :| 0 <= j < |cur[1..]| && cur[1..][j] == c;
        assert cur[j + 1] == c;
      }
      CountZero(tail, HasId(cur[0].id));
    } else {
      assert cur[0].id != cur[i].id;
      SelectChangedCount(cur[1..], changed, batch, i - 1);
    }
  }

  /** With unique previous ids, each vanished id has exactly one tombstone. */
  lemma {:induction false} TombstoneCount(
    prev: seq<SnapshotRow>, curIds: set<int>, loadTs: string, batch: string, i: int)
    requires UniqueIds(prev)
    requires 0 <= i < |prev|
    requires prev[i].id !in curIds
    ensures Count(Tombstones(prev, curIds, loadTs, batch), HasId(prev[i].id)) == 1
    decreases |prev|
  {
    var head := if prev[0].id in curIds then [] else [Stamp(prev[0], true, loadTs, batch)];
    var tail := Tombstones(prev[1..], curIds, loadTs, batch);
    assert Tombstones(prev, curIds, loadTs, batch) == head + tail;
    CountAppend(head, tail, HasId(prev[i].id));
    if i == 0 {
      forall x | x in tail ensures !HasId(prev[0].id)(x) {
        var p :| p in prev[1..] && p.id !in curIds && x == Stamp(p, true, loadTs, batch);
        var j :| 0 <= j < |prev[1..]| && prev[1..][j] == p;
        assert prev[j + 1] == p;
      }
      CountZero(tail, HasId(prev[0].id));
    } else {
      assert prev[0].id != prev[i].id;
      TombstoneCount(prev[1..], curIds, loadTs, batch, i - 1);
    }
  }

  /** Every previous row whose id vanished has exactly one staged row: a
      tombstone that keeps its name, code and source and carries the current
      snapshot's load time. */
  lemma DiffTombstones(cur: seq<SnapshotRow>, prev: seq<SnapshotRow>, batch: string, loadTs: string)
    requires |cur| > 0
    requires forall c :: c in cur ==> c.loadTs == loadTs
    requires UniqueIds(prev)
    ensures Diff(cur, Some(prev), batch).Ok?
    ensures forall i :: 0 <= i < |prev| && prev[i].id !in Ids(cur) ==>
      && Count(Diff(cur, Some(prev), batch).value, HasId(prev[i].id)) == 1
      && StagingRow(prev[i].id, prev[i].fullName, prev[i].triCode, loadTs, prev[i].source, true, batch)
           in Diff(cur, Some(prev), batch).value
  {
    assert cur[0] in cur;
    var changed := JoinBack(cur, Triples(cur) - Triples(prev), batch);
    var deleted := Tombstones(prev, Ids(cur), cur[0].loadTs, batch);
    forall i | 0 <= i < |prev| && prev[i].id !in Ids(cur)
      ensures Count(changed + deleted, HasId(prev[i].id)) == 1
      ensures Stamp(prev[i], true, loadTs, batch) in changed + deleted
    {
      CountAppend(changed, deleted, HasId(prev[i].id));
      forall x | x in changed ensures !HasId(prev[i].id)(x) {
        var c :| c in cur && x == Stamp(c, false, c.loadTs, batch);
      }
      CountZero(changed, HasId(prev[i].id));
      TombstoneCount(prev, Ids(cur), cur[0].loadTs, batch, i);
      assert prev[i] in prev;
    }
  }

  /** With unique current ids, a current row is staged (once, not deleted)
      exactly when its `(id, fullName, triCode)` triple is absent from the
      previous snapshot; load time and source play no part. A reused id with
      new attributes therefore yields one changed row and no tombstone. */
  lemma DiffChangeDetection(cur: seq<SnapshotRow>, prev: seq<SnapshotRow>, batch: string)
    requires |cur| > 0
    requires UniqueIds(cur)
    ensures Diff(cur, Some(prev), batch).Ok?
    ensures forall i :: 0 <= i < |cur| ==>
      && ((Stamp(cur[i], false, cur[i].loadTs, batch) in Diff(cur, Some(prev), batch).value)
            == (Business(cur[i]) !in Triples(prev)))
      && Count(Diff(cur, Some(prev), batch).value, HasId(cur[i].id))
            == if Business(cur[i]) in Triples(prev) then 0 else 1
    ensures forall x :: x in Diff(cur, Some(prev), batch).value && !x.isDeleted ==>
      exists c :: c in cur && Business(c) !in Triples(prev) && x == Stamp(c, false, c.loadTs, batch)
  {
    var changedTriples := Triples(cur) - Triples(prev);
    forall c, t | c in cur && t in changedTriples && t.id == c.id ensures t == Business(c) {
      var c' :| c' in cur && Business(c') == t;
      var i :| 0 <= i < |cur| && cur[i] == c;
      var j :| 0 <= j < |cur| && cur[j] == c';
    }
    JoinBackSelects(cur, changedTriples, batch);
    var changed := SelectChanged(cur, changedTriples, batch);
    var deleted := Tombstones(prev, Ids(cur), cur[0].loadTs, batch);
    assert Diff(cur, Some(prev), batch).value == changed + deleted;
    forall i | 0 <= i < |cur|
      ensures (Stamp(cur[i], false, cur[i].loadTs, batch) in changed + deleted)
                == (Business(cur[i]) !in Triples(prev))
      ensures Count(changed + deleted, HasId(cur[i].id))
        == if Business(cur[i]) in Triples(prev) then 0 else 1
    {
      assert cur[i] in cur;
      CountAppend(changed, deleted, HasId(cur[i].id));
      forall x | x in deleted ensures !HasId(cur[i].id)(x) {
      }
      CountZero(deleted, HasId(cur[i].id));
      SelectChangedCount(cur, changedTriples, batch, i);
    }
  }

  /** When the previous snapshot has the same business content as the current
      one (only load times or sources differ), nothing is staged. */
  lemma DiffCompaction(cur: seq<SnapshotRow>, prev: seq<SnapshotRow>, batch: string)
    requires |cur| > 0
    requires Triples(cur) == Triples(prev)
    ensures Diff(cur, Some(prev), batch) == Ok([])
  {
    assert Triples(cur) - Triples(prev) == {};
    JoinBackSelects(cur, {}, batch);
    CountZero(cur, InChanged({}));
    forall p | p in prev ensures p.id in Ids(cur) {
      assert Business(p) in Triples(cur);
      var c :| c in cur && Business(c) == Business(p);
    }
    CountZero(prev, Vanished(Ids(cur)));
  }
}

=== FILE: table_names.dfy ===
/** Naming of the dated snapshot tables and the date/timestamp text formats
    the names are derived from. */
module TableNames {

  /** Logical dataset name recorded in the metadata ledger. */
  const LedgerTableName: string := "dwh_source.teams"

  /** Prefix of every dated snapshot table: `dwh_source.teams_<date>`. */
  const SnapshotPrefix: string := "dwh_source.teams_"

  predicate IsDigit(c: char)
  {
    '0' <= c <= '9'
  }

  /** A run date `YYYY-MM-DD`, the scheduler's logical date. */
  predicate IsDate(d: string)
  {
    && |d| == 10
    && IsDigit(d[0]) && IsDigit(d[1]) && IsDigit(d[2]) && IsDigit(d[3])
    && d[4] == '-'
    && IsDigit(d[5]) && IsDigit(d[6])
    && d[7] == '-'
    && IsDigit(d[8]) && IsDigit(d[9])
  }

  /** A ledger stamp `YYYY-MM-DD HH:MM:SS`. */
  predicate IsTimestamp(t: string)
  {
    && |t| == 19
    && IsDate(t[..10])
    && t[10] == ' '
    && IsDigit(t[11]) && IsDigit(t[12])
    && t[13] == ':'
    && IsDigit(t[14]) && IsDigit(t[15])
    && t[16] == ':'
    && IsDigit(t[17]) && IsDigit(t[18])
  }

  /** `s.replace('-', '_')`. */
  function DashToUnderscore(s: string): (r: string)
    ensures |r| == |s|
    ensures '-' !in r
    decreases |s|
  {
    if |s| == 0 then []
    else [if s[0] == '-' then '_' else s[0]] + DashToUnderscore(s[1..])
  }

  /** `s.replace('_', '-')`, the inverse on strings without an underscore. */
  function UnderscoreToDash(s: string): (r: string)
    ensures |r| == |s|
    decreases |s|
  {
    if |s| == 0 then []
    else [if s[0] == '_' then '-' else s[0]] + UnderscoreToDash(s[1..])
  }

  lemma {:induction false} DashRoundTrip(s: string)
    requires '_' !in s
    ensures UnderscoreToDash(DashToUnderscore(s)) == s
    decreases |s|
  {
    if |s| > 0 {
      assert s == [s[0]] + s[1..];
      DashRoundTrip(s[1..]);
    }
  }

  /** Python's `s[:n]`: the whole string when it is shorter than `n`. */
  function PyPrefix(s: string, n: nat): (r: string)
    ensures |r| == if |s| <= n then |s| else n
    ensures r <= s
  {
    if |s| <= n then s else s[..n]
  }

  /** Name of the snapshot table written for run date `date`. */
  function SnapshotTableName(date: string): (r: string)
    ensures |r| == |SnapshotPrefix| + |date|
    ensures r[..|SnapshotPrefix|] == SnapshotPrefix
    ensures '-' !in r[|SnapshotPrefix|..]
  {
    SnapshotPrefix + DashToUnderscore(date)
  }

  /** Name of the snapshot table read back for a ledger stamp: its first ten
      characters taken as the date. */
  function PrevTableName(updatedAt: string): (r: string)
    ensures |r| == |SnapshotPrefix| + (if |updatedAt| < 10 then |updatedAt| else 10)
    ensures r[..|SnapshotPrefix|] == SnapshotPrefix
    ensures '-' !in r[|SnapshotPrefix|..]
  {
    SnapshotTableName(PyPrefix(updatedAt, 10))
  }

  lemma DateHasNoUnderscore(d: string)
    requires IsDate(d)
    ensures '_' !in d
  {
    assert forall i :: 0 <= i < |d| ==> d[i] == '-' || IsDigit(d[i]);
  }

  /** Different run dates get different tables. */
  lemma SnapshotTableNameInjective(d1: string, d2: string)
    requires '_' !in d1 && '_' !in d2
    ensures SnapshotTableName(d1) == SnapshotTableName(d2) <==> d1 == d2
  {
    if SnapshotTableName(d1) == SnapshotTableName(d2) {
      var p := |SnapshotPrefix|;
      assert DashToUnderscore(d1) == SnapshotTableName(d1)[p..];
      assert DashToUnderscore(d2) == SnapshotTableName(d2)[p..];
      DashRoundTrip(d1);
      DashRoundTrip(d2);
    }
  }

  /** A well-formed ledger stamp leads back to the snapshot table of the run
      date it starts with, and to no other run date's table. */
  lemma PrevTableNameOfTimestamp(ts: string, d: string)
    requires IsTimestamp(ts)
    requires IsDate(d)
    ensures PrevTableName(ts) == SnapshotTableName(d) <==> ts[..10] == d
  {
    DateHasNoUnderscore(ts[..10]);
    DateHasNoUnderscore(d);
    SnapshotTableNameInjective(ts[..10], d);
  }
}

=== FILE: text.dfy ===
/** String renderings the warehouse relies on: Spark's cast of an integer
    column to text, and `concat_ws` with a one-character separator. */
module Text {

  function DigitChar(d: nat): (c: char)
    requires d < 10
    ensures '0' <= c <= '9'
  {
    "0123456789"[d]
  }

  function DigitValue(c: char): (d: nat)
    requires '0' <= c <= '9'
    ensures d < 10
  {
    (c as int) - ('0' as int)
  }

  /** Decimal digits of `n`, most significant first, no leading zeros. */
  function NatToString(n: nat): (s: string)
    ensures |s| >= 1
    ensures forall i :: 0 <= i < |s| ==> '0' <= s[i] <= '9'
    decreases n
  {
    if n < 10 then [DigitChar(n)] else NatToString(n / 10) + [DigitChar(n % 10)]
  }

  /** Cast of an integer to a string: a minus sign before negative values. */
  function IntToString(i: int): (s: string)
    ensures |s| >= 1
    ensures forall k :: 0 <= k < |s| ==> s[k] == '-' || '0' <= s[k] <= '9'
  {
    if i < 0 then "-" + NatToString(-i) else NatToString(i)
  }

  /** Reads decimal digits back; the inverse of `NatToString`. */
  function ParseNat(s: string): (n: nat)
    requires forall i :: 0 <= i < |s| ==> '0' <= s[i] <= '9'
    decreases |s|
  {
    if |s| == 0 then 0 else ParseNat(s[..|s| - 1]) * 10 + DigitValue(s[|s| - 1])
  }

  /** Reads an optionally negative decimal back; the inverse of `IntToString`. */
  function ParseInt(s: string): (i: int)
    requires forall k :: 0 <= k < |s| ==> s[k] == '-' || '0' <= s[k] <= '9'
    requires forall k :: 1 <= k < |s| ==> '0' <= s[k] <= '9'
  {
    if |s| > 0 && s[0] == '-' then var n: int := ParseNat(s[1..]); -n else ParseNat(s)
  }

  /** Appending a digit shifts the value one decimal place. */
  lemma ParseNatSnoc(s: string, c: char)
    requires forall i :: 0 <= i < |s| ==> '0' <= s[i] <= '9'
    requires '0' <= c <= '9'
    ensures ParseNat(s + [c]) == ParseNat(s) * 10 + DigitValue(c)
  {
    assert (s + [c])[..|s|] == s;
  }

  lemma DigitRoundTrip(d: nat)
    requires d < 10
    ensures DigitValue(DigitChar(d)) == d
  {
  }

  lemma {:induction false} NatRoundTrip(n: nat)
    ensures ParseNat(NatToString(n)) == n
    decreases n
  {
    if n < 10 {
      ParseNatSnoc([], DigitChar(n));
      DigitRoundTrip(n);
      assert [] + [DigitChar(n)] == [DigitChar(n)];
    } else {
      NatRoundTrip(n / 10);
      ParseNatSnoc(NatToString(n / 10), DigitChar(n % 10));
      DigitRoundTrip(n % 10);
      assert (n / 10) * 10 + n % 10 == n;
    }
  }

  /** Rendering an integer and reading it back gives the integer. */
  lemma IntRoundTrip(i: int)
    ensures ParseInt(IntToString(i)) == i
  {
    if i < 0 {
      NatRoundTrip(-i);
      assert IntToString(i)[1..] == NatToString(-i);
    } else {
      NatRoundTrip(i);
    }
  }

  /** Distinct integers render to distinct strings. */
  lemma IntToStringInjective(i: int, j: int)
    ensures IntToString(i) == IntToString(j) <==> i == j
  {
    IntRoundTrip(i);
    IntRoundTrip(j);
  }

  /** `concat_ws("_", a, b)` for two non-null columns. */
  function ConcatWs(a: string, b: string): (s: string)
    ensures |s| == |a| + 1 + |b|
    ensures s[|a|] == '_'
  {
    a + "_" + b
  }

  /** When the left part never contains the separator, the first separator
      in the joined text splits it back into its two parts. */
  lemma ConcatWsInjective(a1: string, b1: string, a2: string, b2: string)
    requires '_' !in a1 && '_' !in a2
    ensures ConcatWs(a1, b1) == ConcatWs(a2, b2) <==> a1 == a2 && b1 == b2
  {
    if ConcatWs(a1, b1) == ConcatWs(a2, b2) {
      var s := ConcatWs(a1, b1);
      assert |a1| == |a2|;
      assert a1 == s[..|a1|] == a2;
      assert b1 == s[|a1| + 1..] == b2;
    }
  }

  /** Without that restriction two different pairs can share one joined text. */
  lemma ConcatWsAliases()
    ensures ConcatWs("1_A", "B") == ConcatWs("1", "A_B")
  {
  }
}
